=== FILE: README.md ===
# Constant-product market maker simulator: pool ledger and quote search

This project models two pieces of the amm-sim simulator for a YES/NO prediction
market, over `real` numbers.

**The pool ledger of `cpmm.py`** (module `CpmmLedger`, file `cpmm_ledger.dfy`;
module `CpmmBuy`, file `cpmm_buy.dfy`). The script keeps its state in globals:
`lp_token`, `lp_yes`, `lp_no`, four prices and a `history` list. Here they form
one immutable `Pool` record. `create_event`, `add_liquidity` and `buy_token`
become pure transitions that return an `Outcome`. An `Outcome` is either
`Done(pool)` or `Raised(error, pool)`. In the second case, `pool` holds the
globals as they stood when the Python exception was raised. This matters for
`add_liquidity`. It moves the three reserves before it divides by
`lp_yes + lp_no`, so a `ZeroDivisionError` leaves the reserves moved while the
prices and history stay as they were. As written, `buy_token` always raises
`UnboundLocalError` and changes nothing (see Findings). Its arithmetic
(cpmm.py:62-68 and 74-80) is modelled separately as a pure function on
explicit inputs. Next to it sits the constant-product trade that arithmetic was
evidently meant to perform. `Replay` runs a sequence of calls for a caller that
catches each exception and carries on. The invariants are proved for every
prefix, so they also cover a script that stops at its first uncaught exception.

**The bisection quote search of `bins_demo.py`** (module `BinsQuote`, file
`bins_quote.dfy`). The pricing method `calc_buy` belongs to a `CPMM` class that
is not part of this model, so it is a parameter, and `calc_sell` is derived
from it. The bound setup estimates a marginal price from one step of size `eps`
and takes `hi = marginal_p * sell_amount`. The bisection then looks for a
collateral amount whose sale lands just under the target. The loop runs with an
explicit iteration budget (`fuel`). Only partial correctness is proved: a
returned quote sells for less than the target, and by at most `approx_eps`.

`bins_demo.py` and `run_market.py` import a `CPMM` class that `cpmm.py` does
not define (bins_demo.py:1, run_market.py:1). That class takes fee settings and
has a `fee_pool` and an impermanent-loss calculation (run_market.py:4, 25).
`cpmm.py` has none of these, and this model follows `cpmm.py`.

## Model

| member | source | states |
|---|---|---|
| CpmmLedger.AddLiquidity | cpmm.py:29-50 | lp_token, lp_yes and lp_no each rise by exactly `amount`, on success and on failure alike. The call raises ZeroDivisionError exactly when the new lp_yes + lp_no is zero, and then the prices and history are untouched. On success, each of the four prices times the new reserve total equals the old price plus `amount`. Exactly one row is appended, holding "add", "liquidity", amount, the old and new buy_price_yes, "0" and the post-update reserves. |
| CpmmLedger.CreateEvent | cpmm.py:26-27 | Has exactly the effect of add_liquidity. From the import-time state, a non-zero deposit gives lp_yes = lp_no = lp_token = deposit, every price 1/2 and a two-row history. A zero deposit raises and leaves only the header. |
| CpmmLedger.BuyToken | cpmm.py:57-62 | Always raises UnboundLocalError and leaves every reserve, price and history row unchanged. |
| CpmmLedger.InitialBalanced | cpmm.py:17-24 | The import-time state is balanced. The header row has 8 cells, because "type" "amount" concatenate into one string. |
| CpmmLedger.ApplyKeepsBalance | cpmm.py:38-50 | One call keeps lp_yes = lp_no = lp_token and the four prices equal. It keeps the history as the header followed by 9-cell liquidity rows, and only ever appends to it. On a balanced pool, add_liquidity raises exactly when lp_yes + amount is zero. |
| CpmmLedger.ReplayKeepsBalance | cpmm.py:38-50 | Any sequence of create/add/buy calls from a balanced pool ends balanced, and the starting history is a prefix of the final one. |
| CpmmLedger.ReplayDeposits | cpmm.py:38-40 | After any sequence of calls, each of lp_token, lp_yes and lp_no has moved by exactly the total deposited through create_event/add_liquidity. |
| CpmmLedger.ReplayFromInitial | cpmm.py:17-24 | From the import-time state, any sequence of calls leaves lp_yes = lp_no = lp_token = total deposited, all four prices equal, and a well-formed history that starts with the header. |
| CpmmLedger.BuysAreInert | cpmm.py:57-62 | Dropping every buy_token call from a sequence does not change the state it ends in. |
| CpmmBuy.AsWrittenBuyYes | cpmm.py:62-70 | YES branch: lp_no rises by amount. lp_yes rises by amount + x and ends at exactly (lp_yes + amount) / amount, whatever lp_no was. tokens_return = amount - x, and price times tokens_return equals amount. The row has 9 cells, with lp_token copied unchanged. |
| CpmmBuy.AsWrittenBuyNo | cpmm.py:74-82 | NO branch: the same with the sides exchanged. lp_no ends at (lp_no + amount) / amount. |
| CpmmBuy.BuyArithmetic | cpmm.py:60-83 | For either side, under the two non-zero-divisor conditions: tokens_return = amount - x, and the recorded price times tokens_return is amount. The purchased reserve takes amount + x and the other takes amount. lp_token is never written. The row has the fixed 9-cell shape. |
| CpmmBuy.NoMirrorsYes | cpmm.py:73-80 | The NO branch on (lp_yes, lp_no) gives the same x, tokens and price as the YES branch on (lp_no, lp_yes), with the reserves swapped. |
| CpmmBuy.AsWrittenBreaksProduct | cpmm.py:62-68 | With 1000 on each side and amount 100, the as-written YES branch leaves lp_yes = 11 and lp_no = 1100, so the product changes. It returns 1189 tokens. |
| CpmmBuy.ConstantProductBuy | cpmm.py:62-68 | Corrected trade: lp_yes * lp_no is the same before and after. The amount goes to the opposite reserve and the purchased reserve moves by x. tokens_return = amount - x, price times tokens_return = amount, and lp_token is not written. |
| CpmmBuy.ConstantProductBuyGains | cpmm.py:64-68 | With positive reserves and a positive amount, the corrected trade is defined. x is negative, both reserves stay positive, more tokens than collateral come back, and the price lies strictly between 0 and 1. |
| CpmmBuy.ConstantProductScenario | cpmm.py:62-68 | Corrected trade on 1000/1000 with amount 100: lp_no = 1100, lp_yes = 10000/11, tokens returned 2100/11, price 11/21. |
| CpmmBuy.TradeX | cpmm.py:64 | Corrected move of the purchased reserve: adding x to it, with the amount added to the opposite reserve, gives back exactly the product of the two reserves before the trade. |
| CpmmBuy.Commit | cpmm.py:62-70 | Writing a product-keeping trade and its row into the globals is a completed purchase as `Purchased` describes it. The new reserves are the trade's reserves, and the appended row is the trade's row. |
| CpmmBuy.BuyTokenFixed | cpmm.py:57-83 | buy_token with its globals declared and the corrected trade. It checks both divisors before writing anything, so it raises ZeroDivisionError, leaving everything unchanged, exactly when a divisor is zero. This order is a design choice: the source writes the reserves (lines 62-65) before the price division at line 68. The call never raises on positive reserves and a positive amount. Otherwise, as `Purchased` states: the amount goes into the opposite reserve (lp_no for YES, lp_yes for NO), the purchased reserve moves by x, and lp_yes * lp_no is kept. The purchased side's new buy price times (amount - x) equals amount. lp_token, the sell prices and the other side's buy price are unchanged. Exactly one buy row is appended, holding the side, amount, old and new price, amount - x tokens, the new reserves and lp_token. |
| CpmmBuy.DefinedWhenPositive | cpmm.py:64-68 | Against positive reserves with a positive amount, the corrected trade divides by no zero. |
| CpmmBuy.BuyTokenFixedShrinks | cpmm.py:62-68 | Against positive reserves with a positive amount, the fixed buy_token goes through, and the purchased reserve strictly decreases but stays positive. |
| BinsQuote.CalcSell | bins_demo.py:7 | Selling a on side t yields r tokens exactly when buying -a would report -r tokens: a sale is a negative purchase with the token count negated. |
| BinsQuote.SellIncreasing | bins_demo.py:7 | If calc_buy's token count grows strictly with the amount on [-hi, -lo], then calc_sell (the negated count for buying -a) grows strictly on [lo, hi]. Only an interval is required, which a constant-product calc_buy meets on each side of its pole. |
| BinsQuote.ShortSaleIsBelow | bins_demo.py:41-44 | Where calc_sell grows strictly on a range [lo, hi], an amount in the range whose sale falls short of the target lies strictly below every amount in the range whose sale reaches the target. So a quote inside the searched range never exceeds the collateral the target needs. |
| BinsQuote.SearchRange | bins_demo.py:12-32 | With calc_buy returning normally, the setup fails with ZeroDivisionError exactly when eps, calc_sell(eps) or calc_sell(1) is zero. Otherwise it fails with AssertionError exactly when eps >= calc_sell(hi). On success lo = 0 and hi = eps * target / calc_sell(eps), the inverse of the estimated marginal rate times the target. |
| BinsQuote.Bisect | bins_demo.py:38-49 | The loop is skipped exactly when lo > hi at the start. Once entered, the guard lo <= hi never fails. A returned quote lies in [lo, hi], sells for less than the target but within approx_eps of it, and the counter i is at least 1 and within the budget. If the budget runs out, the bracket lies inside the start range and its width times 2^fuel equals the start width. lo has only moved to points that sell short of the target, and hi only to points that sell at least the target. |
| BinsQuote.QuoteToSell | bins_demo.py:7-52 | Whole script for side 0. A returned quote q satisfies calc_sell(q) < sell_amount and sell_amount - calc_sell(q) <= approx_eps, and 0 <= q <= eps * sell_amount / calc_sell(eps). With calc_buy returning normally, ZeroDivisionError comes exactly from a zero eps, calc_sell(eps) or calc_sell(1). NameError (mid_range never bound) comes only from a negative upper bound. |
| BinsQuote.ExhaustedBracketsRoot | bins_demo.py:38-49 | For a calc_sell that grows strictly on the start range [lo0, hi0] and brackets the target there, a final bracket inside that range still contains every point of the range where calc_sell meets the target: lo < root <= hi. |

## Left out

- run_market.py: it drives the `CPMM` class, which is not part of this model, and writes CSV files.
- The `CPMM` class (`calc_buy`, fees, `fee_pool`, impermanent loss) is not part of this model. `calc_buy` is a parameter, and no formula is assumed for it.
- BinsQuote.SearchRange, BinsQuote.QuoteToSell: calc_buy is taken to return on every input. Any exception it raises itself is not modelled, for example a division by zero inside the class when a sale equals the opposite reserve. Such an exception would surface at bins_demo.py:12, 20, 27 or 41. So the error cases of `SearchRange` and `QuoteToSell` are exact only for a calc_buy that returns.
- The `print` calls of bins_demo.py (lines 13, 17, 21 and 52-57) are left out, because they only produce output. The divisions at bins_demo.py:16 and 20 are modelled by `SearchRange`, which keeps their ZeroDivisionError even though line 20's result is only printed. The NameError that line 52 raises when the loop never ran is modelled by `QuoteToSell`.
- `main()` of cpmm.py (lines 94-100) is left out: it only calls `create_event(100)`, which `CreateEvent` models, and prints the history.
- The commented-out `remove_liquidity`, `sell_token` and getters in cpmm.py have no body to model.
- Floating-point rounding is not modelled: all arithmetic is exact over `real`. The script's int/float mix and its float overflow behaviour are gone with it.
- The concrete constants of bins_demo.py (1000, 0.7, 0.01, 100 and the eps values) are parameters.
- Python's `assert` is modelled as always enabled. Running under `-O` would skip the check at bins_demo.py:27.
- BinsQuote.Bisect: the source loop is unbounded. The model stops after `fuel` iterations and reports `Exhausted`, so convergence and termination are not proved. Both depend on the continuity of calc_sell and on float behaviour.
- BinsQuote.QuoteToSell: running out of `fuel` surfaces as `NotConverged`. The script has no such error; it would keep looping.
- CpmmLedger.Replay: models a caller that catches each exception and continues. The plain script stops at its first uncaught exception, which is a prefix of the same run.

## Findings

| source | as written | input that shows it | evidently intended | confidence | as-written member | corrected member |
|---|---|---|---|---|---|---|
| cpmm.py:57-62 | `buy_token` declares only `history` global but assigns `lp_yes`, `lp_no` and `buy_price_yes`/`buy_price_no`, so Python treats them as locals, and `lp_yes += amount` raises UnboundLocalError | any call, e.g. `buy_token(1, 100)` after `create_event(1000)` | the same `global` declarations `add_liquidity` has, so the purchase updates the pool | high; not executed | CpmmLedger.BuyToken | CpmmBuy.BuyTokenFixed |
| cpmm.py:62-68 | after adding `amount` to both reserves, `x = (lp_yes * lp_no) / (lp_no * amount) - lp_yes`, which does not keep `lp_yes * lp_no` | lp_yes = lp_no = 1000, amount = 100: lp_yes becomes 11, lp_no 1100, product 12100 instead of 1000000, and 1189 tokens are returned | a constant-product trade: k = lp_yes * lp_no taken before the trade, x = k / (lp_no + amount) - lp_yes, lp_no += amount, lp_yes += x, so the product is unchanged | medium; not executed | CpmmBuy.AsWrittenBreaksProduct | CpmmBuy.ConstantProductBuy |

=== FILE: bins_quote.dfy ===
/** The quote search of bins_demo.py: how much collateral to put in so that
    selling it yields just under a target number of outcome tokens.

    The pricing function comes from a CPMM class that is not part of this
    model, so it is a parameter: `calcBuy` for the class method, and the
    search itself works on any `f: real -> real` standing for calc_sell on
    side 0. Only partial correctness is claimed: the loop carries an explicit
    iteration budget (`fuel`) and reports when it runs out. */
module BinsQuote {

  /** Python exceptions the script can raise on the way to a quote, plus
      running out of the iteration budget. */
  datatype QuoteError =
    | ZeroDivisionError  // a zero divisor while estimating the marginal price
    | AssertionError     // the range check before the search failed
    | NameError          // the loop never ran, so no quote was ever bound
    | NotConverged       // the iteration budget ran out

  datatype Result<T> = Ok(value: T) | Err(error: QuoteError)

  /** calc_sell(t, a): selling a is buying -a, and the tokens delivered are
      the negated first component of calc_buy's answer. */
  function CalcSell(calcBuy: (int, real) -> (real, real), t: int, a: real): (r: real)
    ensures calcBuy(t, -a).0 == -r
  {
    -calcBuy(t, -a).0
  }

  /** Where buying more returns more tokens for every amount in [-hi, -lo],
      selling more yields more for every amount in [lo, hi]. Only an interval
      is asked for: a constant-product calc_buy has a pole where the amount
      cancels the opposite reserve, so it is increasing on each side of it
      but not across it. */
  lemma SellIncreasing(calcBuy: (int, real) -> (real, real), t: int, lo: real, hi: real, a: real, b: real)
    requires forall u: real, v: real :: -hi <= u < v <= -lo ==> calcBuy(t, u).0 < calcBuy(t, v).0
    requires lo <= a < b <= hi
    ensures CalcSell(calcBuy, t, a) < CalcSell(calcBuy, t, b)
  {
  }

  /** Strictly increasing on [lo, hi]: inside it, a larger argument always
      gives a larger value. */
  ghost predicate IncreasingOn(f: real -> real, lo: real, hi: real)
  {
    forall u: real, v: real :: lo <= u < v <= hi ==> f(u) < f(v)
  }

  /** Where calc_sell is increasing on [lo, hi] (calc_buy increasing on
      [-hi, -lo]), an amount in that range whose sale falls short of the
      target lies below every amount in the range whose sale reaches it: a
      quote never overshoots the collateral the target needs. */
  lemma ShortSaleIsBelow(calcBuy: (int, real) -> (real, real), t: int, lo: real, hi: real, target: real, q: real)
    requires forall u: real, v: real :: -hi <= u < v <= -lo ==> calcBuy(t, u).0 < calcBuy(t, v).0
    requires lo <= q <= hi
    requires CalcSell(calcBuy, t, q) < target
    ensures forall a: real :: lo <= a <= hi && CalcSell(calcBuy, t, a) >= target ==> q < a
  {
    forall a: real | lo <= a <= hi && CalcSell(calcBuy, t, a) >= target
      ensures q < a
    {
      if a < q {
        SellIncreasing(calcBuy, t, lo, hi, a, q);
      }
    }
  }

  /** The search interval [lo, hi]. */
  datatype Range = Range(lo: real, hi: real)

  /** The bound setup. The marginal rate is estimated from one step of size
      eps, inverted into a marginal price, and hi is that price times the
      target: the collateral the target would cost with no slippage. The
      script divides by calc_sell(0, 1) for a printed check and asserts that
      eps < calc_sell(0, hi) before searching. */
  function SearchRange(f: real -> real, eps: real, target: real): (r: Result<Range>)
    ensures r.Ok? ==> r.value.lo == 0.0 && f(eps) != 0.0 && r.value.hi == eps * target / f(eps) && eps < f(r.value.hi)
    ensures r.Err? && r.error == ZeroDivisionError <==> eps == 0.0 || f(eps) == 0.0 || f(1.0) == 0.0
    ensures r.Err? ==> r.error == ZeroDivisionError || r.error == AssertionError
    ensures eps != 0.0 && f(eps) != 0.0 && f(1.0) != 0.0 ==>
      (r.Ok? <==> eps < f(eps * target / f(eps)))
  {
    if eps == 0.0 then Err(ZeroDivisionError)
    else
      var marginalRate := f(eps) / eps;
      if marginalRate == 0.0 then Err(ZeroDivisionError)
      else
        var marginalPrice := 1.0 / marginalRate;
        if f(1.0) == 0.0 then Err(ZeroDivisionError)
        else
          var hi := marginalPrice * target;
          assert hi == eps * target / f(eps) by {
            MarginalPriceIsInverse(f(eps), eps, target);
          }
          if !(eps < f(hi)) then Err(AssertionError)
          else Ok(Range(0.0, hi))
  }

  /** (1 / (v / eps)) * target is eps * target / v. */
  lemma MarginalPriceIsInverse(v: real, eps: real, target: real)
    requires v != 0.0 && eps != 0.0
    ensures 1.0 / (v / eps) * target == eps * target / v
  {
  }

  /** 2 to the power n. */
  function Pow2(n: nat): (p: real)
    ensures p >= 1.0
  {
    if n == 0 then 1.0 else 2.0 * Pow2(n - 1)
  }

  /** A quote and the value of the iteration counter when it was found. */
  datatype Quote = Quote(amount: real, iterations: nat)

  /** What the bisection ends with: a quote, a loop that never ran, or the
      bracket it had narrowed to when the budget ran out. */
  datatype Search = Found(quote: Quote) | NeverEntered | Exhausted(lo: real, hi: real)

  /** The bisection loop of bins_demo.py, run for at most `fuel` iterations.
      While lo <= hi it tests the midpoint, stops when the midpoint sells for
      less than the target but within approxEps of it, and otherwise moves lo
      up (too little sold) or hi down (enough sold). Starting from lo0 <= hi0
      the loop guard never fails, so the only way out is the stop; the bracket
      halves on every other pass, lo only ever lands on points that sell
      short of the target and hi only on points that sell at least the target. */
  method Bisect(f: real -> real, target: real, approxEps: real, lo0: real, hi0: real, fuel: nat)
    returns (r: Search)
    ensures r.NeverEntered? <==> lo0 > hi0
    ensures r.Found? ==>
      f(r.quote.amount) < target && target - f(r.quote.amount) <= approxEps &&
      lo0 <= r.quote.amount <= hi0 && 1 <= r.quote.iterations <= fuel
    ensures r.Exhausted? ==>
      lo0 <= r.lo <= r.hi <= hi0 && (r.hi - r.lo) * Pow2(fuel) == hi0 - lo0 &&
      (r.lo == lo0 || f(r.lo) < target) && (r.hi == hi0 || f(r.hi) >= target)
  {
    var lo, hi := lo0, hi0;
    var i: nat := 1;
    while lo <= hi && i <= fuel
      invariant 1 <= i <= fuel + 1
      invariant lo0 <= hi0 ==> lo0 <= lo <= hi <= hi0
      invariant i == 1 || lo0 > hi0 ==> lo == lo0 && hi == hi0
      invariant (hi - lo) * Pow2(i - 1) == hi0 - lo0
      invariant lo == lo0 || f(lo) < target
      invariant hi == hi0 || f(hi) >= target
      decreases fuel + 1 - i
    {
      var mid := (lo + hi) / 2.0;
      var got := f(mid);
      if got < target && target - got <= approxEps {
        return Found(Quote(mid, i));
      }
      assert (mid - lo) * Pow2(i) == (hi - lo) * Pow2(i - 1);
      assert (hi - mid) * Pow2(i) == (hi - lo) * Pow2(i - 1);
      if got < target {
        lo := mid;
      } else {
        hi := mid;
      }
      i := i + 1;
    }
    if !(lo <= hi) {
      return NeverEntered;
    }
    assert i == fuel + 1 && lo0 <= hi0;
    return Exhausted(lo, hi);
  }

  /** For an f increasing on a start range [lo0, hi0] that brackets the
      target (f(lo0) < target <= f(hi0)), the bracket Bisect stops with when
      its budget runs out still holds every point of the range where f meets
      the target: lo < root <= hi. */
  lemma ExhaustedBracketsRoot(f: real -> real, target: real, lo0: real, hi0: real, lo: real, hi: real, root: real)
    requires IncreasingOn(f, lo0, hi0)
    requires f(lo0) < target <= f(hi0)
    requires lo0 <= lo <= hi <= hi0
    requires (lo == lo0 || f(lo) < target) && (hi == hi0 || f(hi) >= target)
    requires lo0 <= root <= hi0 && f(root) == target
    ensures lo < root <= hi
  {
  }

  /** The whole script from bound setup to quote, for side 0: a returned quote
      sells for less than the target, by at most approxEps, and lies between
      0 and the no-slippage estimate of the collateral needed. */
  method QuoteToSell(calcBuy: (int, real) -> (real, real), eps: real, approxEps: real, sellAmount: real, fuel: nat)
    returns (r: Result<Quote>)
    ensures r.Ok? ==>
      var got := CalcSell(calcBuy, 0, r.value.amount);
      got < sellAmount && sellAmount - got <= approxEps && 0.0 <= r.value.amount &&
      CalcSell(calcBuy, 0, eps) != 0.0 && r.value.amount <= eps * sellAmount / CalcSell(calcBuy, 0, eps)
    ensures r.Err? && r.error == ZeroDivisionError <==>
      eps == 0.0 || CalcSell(calcBuy, 0, eps) == 0.0 || CalcSell(calcBuy, 0, 1.0) == 0.0
    ensures r.Err? && r.error == NameError ==>
      CalcSell(calcBuy, 0, eps) != 0.0 && eps * sellAmount / CalcSell(calcBuy, 0, eps) < 0.0
  {
    var f := (a: real) => CalcSell(calcBuy, 0, a);
    var range := SearchRange(f, eps, sellAmount);
    if range.Err? {
      return Err(range.error);
    }
    var search := Bisect(f, sellAmount, approxEps, range.value.lo, range.value.hi, fuel);
    match search
    case Found(q) =>
      r := Ok(q);
    case NeverEntered =>
      r := Err(NameError);
    case Exhausted(_, _) =>
      r := Err(NotConverged);
  }
}

=== FILE: cpmm_buy.dfy ===
/** The arithmetic of buy_token in cpmm.py, lifted out of the function so it
    can be studied on explicit inputs (the function itself never reaches it,
    see CpmmLedger.BuyToken), together with the constant-product trade it was
    evidently meant to perform. */
module CpmmBuy {
  import opened CpmmLedger

  /** What one purchase computes: the new reserves, the adjustment x made to
      the purchased side, the tokens handed back, the recorded price and the
      history row. */
  datatype BuyEffect = BuyEffect(lpYes: real, lpNo: real, x: real, tokensReturn: real, priceNew: real, row: Row)

  function BuyRow(yes: bool, amount: real, priceOld: real, e: BuyEffect, lpToken: real): (row: Row)
  {
    [Text("buy"), Text(if yes then "yes" else "no"), Num(amount), Num(priceOld), Num(e.priceNew),
     Num(e.tokensReturn), Num(e.lpYes), Num(e.lpNo), Num(lpToken)]
  }

  /** The shape every buy row has: nine cells, the side label, the old and
      new price, the tokens returned, the reserves, and lp_token unchanged. */
  predicate IsBuyRow(row: Row, yes: bool, amount: real, priceOld: real, e: BuyEffect, lpToken: real)
  {
    |row| == 9 && row[0] == Text("buy") && row[1] == Text(if yes then "yes" else "no") &&
    row[2] == Num(amount) && row[3] == Num(priceOld) && row[4] == Num(e.priceNew) &&
    row[5] == Num(e.tokensReturn) && row[6] == Num(e.lpYes) && row[7] == Num(e.lpNo) &&
    row[8] == Num(lpToken)
  }

  /** Cancelling the opposite reserve in (y * n) / (n * a). */
  lemma CancelOpposite(y: real, n: real, a: real)
    requires n * a != 0.0
    ensures (y * n) / (n * a) * a == y
  {
  }

  /** Dividing by a non-zero number and multiplying back. */
  lemma DivTimes(a: real, b: real)
    requires b != 0.0
    ensures a / b * b == a
  {
  }

  // ---------------------------------------------------------------------------
  // As written
  // ---------------------------------------------------------------------------

  /** x of the YES branch (cpmm.py:64), on the reserves y and n after both
      took the amount: the product over (n * amount), less y. */
  function AsWrittenXYes(y: real, n: real, amount: real): (x: real)
    requires n * amount != 0.0
  {
    (y * n) / (n * amount) - y
  }

  /** x of the NO branch (cpmm.py:76): the product over (y * amount), less n. */
  function AsWrittenXNo(y: real, n: real, amount: real): (x: real)
    requires y * amount != 0.0
  {
    (y * n) / (y * amount) - n
  }

  /** The two divisions of the as-written branch do not divide by zero: the
      product of the (already increased) opposite reserve and the amount, and
      amount - x. */
  predicate BuyDefined(yes: bool, lpYes: real, lpNo: real, amount: real)
  {
    var y := lpYes + amount;
    var n := lpNo + amount;
    if yes then n * amount != 0.0 && amount - AsWrittenXYes(y, n, amount) != 0.0
    else y * amount != 0.0 && amount - AsWrittenXNo(y, n, amount) != 0.0
  }

  /** The YES branch of buy_token as written (cpmm.py:62-70): both reserves
      take the amount, x is the product over (lp_no * amount) less lp_yes,
      lp_yes moves by x, amount - x tokens go back at price
      amount / (amount - x). So lp_yes ends at (lp_yes + amount) / amount,
      whatever lp_no is. */
  function AsWrittenBuyYes(lpYes: real, lpNo: real, lpToken: real, priceOld: real, amount: real): (e: BuyEffect)
    requires BuyDefined(true, lpYes, lpNo, amount)
    ensures e.tokensReturn == amount - e.x && e.priceNew * e.tokensReturn == amount
    ensures e.lpNo == lpNo + amount && e.lpYes == lpYes + amount + e.x
    ensures e.lpYes * amount == lpYes + amount
    ensures IsBuyRow(e.row, true, amount, priceOld, e, lpToken)
  {
    var y := lpYes + amount;
    var n := lpNo + amount;
    var x := AsWrittenXYes(y, n, amount);
    CancelOpposite(y, n, amount);
    DivTimes(amount, amount - x);
    var e := BuyEffect(y + x, n, x, amount - x, amount / (amount - x), []);
    e.(row := BuyRow(true, amount, priceOld, e, lpToken))
  }

  /** The NO branch of buy_token as written (cpmm.py:74-82), the same steps
      with x taken from the product over (lp_yes * amount) less lp_no. */
  function AsWrittenBuyNo(lpYes: real, lpNo: real, lpToken: real, priceOld: real, amount: real): (e: BuyEffect)
    requires BuyDefined(false, lpYes, lpNo, amount)
    ensures e.tokensReturn == amount - e.x && e.priceNew * e.tokensReturn == amount
    ensures e.lpYes == lpYes + amount && e.lpNo == lpNo + amount + e.x
    ensures e.lpNo * amount == lpNo + amount
    ensures IsBuyRow(e.row, false, amount, priceOld, e, lpToken)
  {
    var y := lpYes + amount;
    var n := lpNo + amount;
    var x := AsWrittenXNo(y, n, amount);
    CancelOpposite(n, y, amount);
    assert y * n == n * y;
    DivTimes(amount, amount - x);
    var e := BuyEffect(y, n + x, x, amount - x, amount / (amount - x), []);
    e.(row := BuyRow(false, amount, priceOld, e, lpToken))
  }

  /** The arithmetic of buy_token(type, amount) as written, on explicit
      inputs: lp_token is only copied into the row, never written. */
  function BuyArithmetic(yes: bool, lpYes: real, lpNo: real, lpToken: real, priceOld: real, amount: real): (e: BuyEffect)
    requires BuyDefined(yes, lpYes, lpNo, amount)
    ensures e.tokensReturn == amount - e.x
    ensures e.priceNew * e.tokensReturn == amount
    ensures yes ==> e.lpNo == lpNo + amount && e.lpYes == lpYes + amount + e.x && e.lpYes * amount == lpYes + amount
    ensures !yes ==> e.lpYes == lpYes + amount && e.lpNo == lpNo + amount + e.x && e.lpNo * amount == lpNo + amount
    ensures IsBuyRow(e.row, yes, amount, priceOld, e, lpToken)
  {
    if yes then AsWrittenBuyYes(lpYes, lpNo, lpToken, priceOld, amount)
    else AsWrittenBuyNo(lpYes, lpNo, lpToken, priceOld, amount)
  }

  /** The NO branch is the YES branch with the reserves swapped. */
  lemma NoMirrorsYes(lpYes: real, lpNo: real, lpToken: real, priceOld: real, amount: real)
    requires BuyDefined(false, lpYes, lpNo, amount)
    ensures BuyDefined(true, lpNo, lpYes, amount)
    ensures var no := BuyArithmetic(false, lpYes, lpNo, lpToken, priceOld, amount);
            var yes := BuyArithmetic(true, lpNo, lpYes, lpToken, priceOld, amount);
            no.x == yes.x && no.tokensReturn == yes.tokensReturn && no.priceNew == yes.priceNew &&
            no.lpNo == yes.lpYes && no.lpYes == yes.lpNo
  {
    var y := lpYes + amount;
    var n := lpNo + amount;
    assert y * n == n * y;
    assert AsWrittenXNo(y, n, amount) == AsWrittenXYes(n, y, amount);
  }

  /** With 1000 on each side and a purchase of 100, the as-written YES branch
      leaves lp_yes at 11 and lp_no at 1100, so lp_yes * lp_no drops from
      1000000 to 12100, and it hands back 1189 tokens for 100 of collateral. */
  lemma AsWrittenBreaksProduct()
    ensures BuyDefined(true, 1000.0, 1000.0, 100.0)
    ensures var e := BuyArithmetic(true, 1000.0, 1000.0, 1000.0, 0.5, 100.0);
            e.lpYes == 11.0 && e.lpNo == 1100.0 && e.tokensReturn == 1189.0 &&
            e.lpYes * e.lpNo != 1000.0 * 1000.0
  {
  }

  // ---------------------------------------------------------------------------
  // Corrected: the constant-product trade
  // ---------------------------------------------------------------------------

  /** The move x of the purchased reserve `own` when `amount` goes into the
      opposite reserve `other`: own * other over the new opposite reserve,
      less own. It is exactly the move that keeps the product. */
  function TradeX(own: real, other: real, amount: real): (x: real)
    requires other + amount != 0.0
    ensures (own + x) * (other + amount) == own * other
  {
    DivTimes(own * other, other + amount);
    (own * other) / (other + amount) - own
  }

  /** The divisions of the constant-product trade do not divide by zero. */
  predicate ConstantProductDefined(yes: bool, lpYes: real, lpNo: real, amount: real)
  {
    if yes then lpNo + amount != 0.0 && amount - TradeX(lpYes, lpNo, amount) != 0.0
    else lpYes + amount != 0.0 && amount - TradeX(lpNo, lpYes, amount) != 0.0
  }

  /** The purchase with k = lp_yes * lp_no captured before the trade: the
      amount goes into the opposite reserve, the purchased reserve moves by
      x = k / (opposite + amount) - purchased, and amount - x tokens are
      returned. The product of the reserves is unchanged and lp_token is not
      written. */
  function ConstantProductBuy(yes: bool, lpYes: real, lpNo: real, lpToken: real, priceOld: real, amount: real): (e: BuyEffect)
    requires ConstantProductDefined(yes, lpYes, lpNo, amount)
    ensures e.lpYes * e.lpNo == lpYes * lpNo
    ensures e.tokensReturn == amount - e.x
    ensures e.priceNew * e.tokensReturn == amount
    ensures yes ==> e.lpNo == lpNo + amount && e.lpYes == lpYes + e.x
    ensures !yes ==> e.lpYes == lpYes + amount && e.lpNo == lpNo + e.x
    ensures IsBuyRow(e.row, yes, amount, priceOld, e, lpToken)
  {
    if yes then
      var x := TradeX(lpYes, lpNo, amount);
      DivTimes(amount, amount - x);
      var e := BuyEffect(lpYes + x, lpNo + amount, x, amount - x, amount / (amount - x), []);
      e.(row := BuyRow(yes, amount, priceOld, e, lpToken))
    else
      var x := TradeX(lpNo, lpYes, amount);
      DivTimes(amount, amount - x);
      assert (lpYes + amount) * (lpNo + x) == (lpNo + x) * (lpYes + amount);
      var e := BuyEffect(lpYes + amount, lpNo + x, x, amount - x, amount / (amount - x), []);
      e.(row := BuyRow(yes, amount, priceOld, e, lpToken))
  }

  /** Against positive reserves a positive purchase is always defined, shrinks
      the purchased reserve without emptying it, returns more tokens than the
      collateral paid, and records a price strictly between 0 and 1. */
  lemma ConstantProductBuyGains(yes: bool, lpYes: real, lpNo: real, lpToken: real, priceOld: real, amount: real)
    requires lpYes > 0.0 && lpNo > 0.0 && amount > 0.0
    ensures ConstantProductDefined(yes, lpYes, lpNo, amount)
    ensures var e := ConstantProductBuy(yes, lpYes, lpNo, lpToken, priceOld, amount);
            e.x < 0.0 && e.lpYes > 0.0 && e.lpNo > 0.0 &&
            e.tokensReturn > amount && 0.0 < e.priceNew < 1.0
  {
    if yes {
      TradeShrinks(lpYes, lpNo, amount);
    } else {
      TradeShrinks(lpNo, lpYes, amount);
      assert lpNo * lpYes == lpYes * lpNo;
    }
  }

  /** The purchased reserve `own` against the opposite reserve `other`:
      x = own * other / (other + amount) - own equals
      -(own * amount) / (other + amount), so it is negative but smaller in
      size than `own`, and amount / (amount - x) lies in (0, 1). */
  lemma TradeShrinks(own: real, other: real, amount: real)
    requires own > 0.0 && other > 0.0 && amount > 0.0
    ensures var x := TradeX(own, other, amount);
            x < 0.0 && own + x > 0.0 && amount - x > amount && amount - x != 0.0 &&
            0.0 < amount / (amount - x) < 1.0
  {
    var d := other + amount;
    var x := TradeX(own, other, amount);
    assert x == -((own * amount) / d) by {
      assert (own * other) / d - own == (own * other - own * d) / d;
      assert own * other - own * d == -(own * amount);
    }
    assert 0.0 < (own * amount) / d < own by {
      assert (own * amount) / d * d == own * amount;
      assert own * amount < own * d;
    }
    RatioBelowOne(amount, amount - x);
  }

  /** A positive amount over a larger one lies strictly between 0 and 1. */
  lemma RatioBelowOne(a: real, t: real)
    requires 0.0 < a < t
    ensures 0.0 < a / t < 1.0
  {
    var q := a / t;
    assert q * t == a;
    assert 0.0 < q by {
      if q <= 0.0 { assert false; }
    }
    assert q < 1.0 by {
      if q >= 1.0 { assert false; }
    }
  }

  /** A purchase against positive reserves never divides by zero. */
  lemma DefinedWhenPositive(yes: bool, lpYes: real, lpNo: real, amount: real)
    ensures lpYes > 0.0 && lpNo > 0.0 && amount > 0.0 ==> ConstantProductDefined(yes, lpYes, lpNo, amount)
  {
    if lpYes > 0.0 && lpNo > 0.0 && amount > 0.0 {
      ConstantProductBuyGains(yes, lpYes, lpNo, 0.0, 0.0, amount);
    }
  }

  /** 1000 on each side and a purchase of 100 on YES: x = 1000000/1100 - 1000,
      2100/11 (about 190.9) tokens returned, lp_yes = 10000/11 (about 909.1),
      lp_no = 1100. */
  lemma ConstantProductScenario()
    ensures ConstantProductDefined(true, 1000.0, 1000.0, 100.0)
    ensures var e := ConstantProductBuy(true, 1000.0, 1000.0, 1000.0, 0.5, 100.0);
            e.lpNo == 1100.0 && e.lpYes == 10000.0 / 11.0 && e.tokensReturn == 2100.0 / 11.0 &&
            e.priceNew == 11.0 / 21.0
  {
  }

  /** What a completed purchase of `amount` on one side does to the pool:
      the amount goes into the opposite reserve, the purchased reserve moves
      by some x, the product of the reserves is kept, the purchased side's buy
      price becomes amount / (amount - x), lp_token, the sell prices and the
      other side's buy price stay, and exactly one buy row recording all of
      this is appended. */
  predicate Purchased(s: Pool, p: Pool, yes: bool, amount: real)
  {
    var x := if yes then p.lpYes - s.lpYes else p.lpNo - s.lpNo;
    var price := if yes then p.buyPriceYes else p.buyPriceNo;
    p.lpYes * p.lpNo == s.lpYes * s.lpNo &&
    (if yes then p.lpNo == s.lpNo + amount && p.buyPriceNo == s.buyPriceNo
     else p.lpYes == s.lpYes + amount && p.buyPriceYes == s.buyPriceYes) &&
    price * (amount - x) == amount &&
    p.lpToken == s.lpToken && p.sellPriceYes == s.sellPriceYes && p.sellPriceNo == s.sellPriceNo &&
    |p.history| == |s.history| + 1 && p.history[..|s.history|] == s.history &&
    IsBuyRow(p.history[|s.history|], yes, amount, if yes then s.buyPriceYes else s.buyPriceNo,
             BuyEffect(p.lpYes, p.lpNo, x, amount - x, price, []), s.lpToken)
  }

  /** Writes a computed trade `e` into the pool; whenever `e` keeps the
      product, moves the reserves as a purchase does and carries its row,
      the result is a completed purchase. */
  function Commit(s: Pool, yes: bool, amount: real, e: BuyEffect): (p: Pool)
    requires e.lpYes * e.lpNo == s.lpYes * s.lpNo
    requires e.tokensReturn == amount - e.x && e.priceNew * e.tokensReturn == amount
    requires yes ==> e.lpNo == s.lpNo + amount && e.lpYes == s.lpYes + e.x
    requires !yes ==> e.lpYes == s.lpYes + amount && e.lpNo == s.lpNo + e.x
    requires IsBuyRow(e.row, yes, amount, if yes then s.buyPriceYes else s.buyPriceNo, e, s.lpToken)
    ensures Purchased(s, p, yes, amount)
    ensures p.lpYes == e.lpYes && p.lpNo == e.lpNo && p.history == s.history + [e.row]
    ensures e.x < 0.0 && e.lpYes > 0.0 && e.lpNo > 0.0 ==>
      (yes ==> 0.0 < p.lpYes < s.lpYes) && (!yes ==> 0.0 < p.lpNo < s.lpNo)
  {
    assert IsBuyRow(e.row, yes, amount, if yes then s.buyPriceYes else s.buyPriceNo, e.(row := []), s.lpToken);
    s.(
      lpYes := e.lpYes,
      lpNo := e.lpNo,
      buyPriceYes := if yes then e.priceNew else s.buyPriceYes,
      buyPriceNo := if yes then s.buyPriceNo else e.priceNew,
      history := s.history + [e.row])
  }

  /** buy_token with lp_yes, lp_no, buy_price_yes and buy_price_no declared
      global and the constant-product trade. Both divisors are checked before
      anything is written, so a call that would divide by zero raises and
      changes nothing; the source's statement order would have moved the
      reserves before the price division. Otherwise the purchase updates the pool as
      `Purchased` describes, and against positive reserves with a positive
      amount it always goes through. */
  function BuyTokenFixed(s: Pool, yes: bool, amount: real): (r: Outcome)
    ensures r.Raised? <==> !ConstantProductDefined(yes, s.lpYes, s.lpNo, amount)
    ensures r.Raised? ==> r.error == ZeroDivisionError && r.pool == s
    ensures r.Done? ==> Purchased(s, r.pool, yes, amount)
    ensures s.lpYes > 0.0 && s.lpNo > 0.0 && amount > 0.0 ==> r.Done?
  {
    DefinedWhenPositive(yes, s.lpYes, s.lpNo, amount);
    var priceOld := if yes then s.buyPriceYes else s.buyPriceNo;
    if !ConstantProductDefined(yes, s.lpYes, s.lpNo, amount) then
      Raised(ZeroDivisionError, s)
    else
      var e := ConstantProductBuy(yes, s.lpYes, s.lpNo, s.lpToken, priceOld, amount);
      var p := Commit(s, yes, amount, e);
      Done(p)
  }

  /** Against positive reserves with a positive amount, the fixed buy_token
      goes through and the purchased reserve strictly shrinks without
      emptying. */
  lemma BuyTokenFixedShrinks(s: Pool, yes: bool, amount: real)
    requires s.lpYes > 0.0 && s.lpNo > 0.0 && amount > 0.0
    ensures var r := BuyTokenFixed(s, yes, amount);
      r.Done? && (yes ==> 0.0 < r.pool.lpYes < s.lpYes) && (!yes ==> 0.0 < r.pool.lpNo < s.lpNo)
  {
    var priceOld := if yes then s.buyPriceYes else s.buyPriceNo;
    ConstantProductBuyGains(yes, s.lpYes, s.lpNo, s.lpToken, priceOld, amount);
  }
}

=== FILE: cpmm_ledger.dfy ===
/** The module-level pool ledger of cpmm.py: the globals lp_token, lp_yes,
    lp_no, the four price fields and history, and the three operations that
    act on them (create_event, add_liquidity, buy_token).

    Python's ambient globals become one immutable record; each operation is a
    pure transition that returns what the call leaves behind, including the
    case where it raises an exception part-way through. */
module CpmmLedger {

  /** One cell of a history row. The source stores strings and numbers side
      by side in one tuple. */
  datatype Cell = Text(text: string) | Num(value: real)

  type Row = seq<Cell>

  /** The Python exceptions the ledger operations can raise. */
  datatype PyError = ZeroDivisionError | UnboundLocalError

  /** The global state of cpmm.py. */
  datatype Pool = Pool(
    lpToken: real,
    lpYes: real,
    lpNo: real,
    buyPriceYes: real,
    sellPriceYes: real,
    buyPriceNo: real,
    sellPriceNo: real,
    history: seq<Row>)

  /** What a call leaves behind: either it returned normally, or it raised
      `error` and the globals stand as they were at the moment of the raise. */
  datatype Outcome = Done(pool: Pool) | Raised(error: PyError, pool: Pool)

  /** The header row. Python concatenates the adjacent literals "type" "amount"
      into one string, so the header has eight cells, not nine. */
  const HeaderRow: Row := [
    Text("activity"), Text("typeamount"), Text("token_buy_price_old"),
    Text("token_buy_price_new"), Text("returned tokens"),
    Text("lp_yes"), Text("lp_no"), Text("lp_token")]

  /** The state at import time: everything zero, history holding the header. */
  const Initial: Pool := Pool(0.0, 0.0, 0.0, 0.0, 0.0, 0.0, 0.0, [HeaderRow])

  /** The four prices, as one value, for "nothing else changes" statements. */
  function Prices(s: Pool): (p: (real, real, real, real))
  {
    (s.buyPriceYes, s.sellPriceYes, s.buyPriceNo, s.sellPriceNo)
  }

  /** The row add_liquidity appends. */
  function AddRow(amount: real, priceOld: real, priceNew: real, lpYes: real, lpNo: real, lpToken: real): (row: Row)
  {
    [Text("add"), Text("liquidity"), Num(amount), Num(priceOld), Num(priceNew),
     Text("0"), Num(lpYes), Num(lpNo), Num(lpToken)]
  }

  /** add_liquidity(amount). The three reserves are raised first; the price
      updates then divide by the new lp_yes + lp_no, so a zero sum raises
      ZeroDivisionError with the reserves already moved but prices and
      history untouched. */
  function AddLiquidity(s: Pool, amount: real): (r: Outcome)
    ensures r.pool.lpToken == s.lpToken + amount
    ensures r.pool.lpYes == s.lpYes + amount && r.pool.lpNo == s.lpNo + amount
    ensures r.Raised? <==> r.pool.lpYes + r.pool.lpNo == 0.0
    ensures r.Raised? ==>
      r.error == ZeroDivisionError && Prices(r.pool) == Prices(s) && r.pool.history == s.history
    ensures r.Done? ==>
      var total := r.pool.lpYes + r.pool.lpNo;
      r.pool.buyPriceYes * total == s.buyPriceYes + amount &&
      r.pool.sellPriceYes * total == s.sellPriceYes + amount &&
      r.pool.buyPriceNo * total == s.buyPriceNo + amount &&
      r.pool.sellPriceNo * total == s.sellPriceNo + amount
    ensures r.Done? ==>
      r.pool.history == s.history + [AddRow(amount, s.buyPriceYes, r.pool.buyPriceYes,
                                            r.pool.lpYes, r.pool.lpNo, r.pool.lpToken)]
  {
    var moved := s.(lpToken := s.lpToken + amount, lpYes := s.lpYes + amount, lpNo := s.lpNo + amount);
    var total := moved.lpYes + moved.lpNo;
    if total == 0.0 then
      Raised(ZeroDivisionError, moved)
    else
      var buyYes := (s.buyPriceYes + amount) / total;
      Done(moved.(
        buyPriceYes := buyYes,
        sellPriceYes := (s.sellPriceYes + amount) / total,
        buyPriceNo := (s.buyPriceNo + amount) / total,
        sellPriceNo := (s.sellPriceNo + amount) / total,
        history := s.history + [AddRow(amount, s.buyPriceYes, buyYes, moved.lpYes, moved.lpNo, moved.lpToken)]))
  }

  /** create_event(liquidity) only delegates to add_liquidity. From the
      import-time state, a non-zero deposit yields equal reserves and every
      price at one half; a zero deposit raises. */
  function CreateEvent(s: Pool, liquidity: real): (r: Outcome)
    ensures r == AddLiquidity(s, liquidity)
    ensures s == Initial && liquidity != 0.0 ==>
      r.Done? && r.pool.lpYes == r.pool.lpNo == r.pool.lpToken == liquidity &&
      Prices(r.pool) == (0.5, 0.5, 0.5, 0.5) && |r.pool.history| == 2
    ensures s == Initial && liquidity == 0.0 ==> r.Raised? && r.pool.history == [HeaderRow]
  {
    var r := AddLiquidity(s, liquidity);
    assert s == Initial && liquidity != 0.0 ==> (0.0 + liquidity) / (liquidity + liquidity) == 0.5;
    r
  }

  /** buy_token(type, amount) as written: the body assigns lp_yes and lp_no,
      so Python treats them as locals (only history is declared global), and
      the first augmented assignment in either branch reads an unbound local.
      The call raises before anything is written. */
  function BuyToken(s: Pool, yes: bool, amount: real): (r: Outcome)
    ensures r.Raised? && r.error == UnboundLocalError
    ensures r.pool == s
  {
    Raised(UnboundLocalError, s)
  }

  /** A call to one of the ledger operations. */
  datatype Op = CreateEventOp(liquidity: real) | AddLiquidityOp(amount: real) | BuyTokenOp(yes: bool, amount: real)

  function Apply(s: Pool, op: Op): (r: Outcome)
  {
    match op
    case CreateEventOp(l) => CreateEvent(s, l)
    case AddLiquidityOp(a) => AddLiquidity(s, a)
    case BuyTokenOp(y, a) => BuyToken(s, y, a)
  }

  /** The globals after a caller issues `ops` in order, catching any exception
      and carrying on with the state the failed call left behind. */
  function Replay(s: Pool, ops: seq<Op>): (p: Pool)
    decreases |ops|
  {
    if ops == [] then s else Replay(Apply(s, ops[0]).pool, ops[1..])
  }

  /** Total collateral deposited by the create/add calls in `ops`. */
  function Deposited(ops: seq<Op>): (total: real)
    decreases |ops|
  {
    if ops == [] then 0.0
    else
      var rest := Deposited(ops[1..]);
      match ops[0]
      case CreateEventOp(l) => l + rest
      case AddLiquidityOp(a) => a + rest
      case BuyTokenOp(_, _) => rest
  }

  /** `ops` with the buy_token calls dropped. */
  function WithoutBuys(ops: seq<Op>): (r: seq<Op>)
    ensures |r| <= |ops|
    ensures forall k :: 0 <= k < |r| ==> !r[k].BuyTokenOp?
    decreases |ops|
  {
    if ops == [] then []
    else if ops[0].BuyTokenOp? then WithoutBuys(ops[1..])
    else [ops[0]] + WithoutBuys(ops[1..])
  }

  /** A row appended by add_liquidity to a pool whose reserves were equal. */
  predicate AddLogRow(row: Row)
  {
    |row| == 9 && row[0] == Text("add") && row[1] == Text("liquidity") &&
    row[5] == Text("0") && row[6] == row[7] == row[8]
  }

  /** The header (8 cells) followed only by 9-cell liquidity rows. */
  predicate WellFormedHistory(h: seq<Row>)
  {
    |h| >= 1 && h[0] == HeaderRow && forall k :: 1 <= k < |h| ==> AddLogRow(h[k])
  }

  /** The state invariant of the ledger under create/add/buy calls. */
  predicate Balanced(s: Pool)
  {
    s.lpYes == s.lpNo == s.lpToken &&
    s.buyPriceYes == s.sellPriceYes == s.buyPriceNo == s.sellPriceNo &&
    WellFormedHistory(s.history)
  }

  lemma InitialBalanced()
    ensures Balanced(Initial)
    ensures |HeaderRow| == 8
  {
  }

  /** One call keeps the reserves equal, the prices equal and the history
      well formed, and only ever appends to the history. On a balanced pool
      add_liquidity fails exactly when the new reserves are zero. */
  lemma ApplyKeepsBalance(s: Pool, op: Op)
    requires Balanced(s)
    ensures Balanced(Apply(s, op).pool)
    ensures s.history <= Apply(s, op).pool.history
    ensures op.AddLiquidityOp? ==> (Apply(s, op).Raised? <==> s.lpYes + op.amount == 0.0)
  {
  }

  /** Any sequence of calls from a balanced pool ends balanced, and the
      history it started with is a prefix of the history it ends with. */
  lemma {:induction false} ReplayKeepsBalance(s: Pool, ops: seq<Op>)
    requires Balanced(s)
    ensures Balanced(Replay(s, ops))
    ensures s.history <= Replay(s, ops).history
    decreases |ops|
  {
    if ops != [] {
      ApplyKeepsBalance(s, ops[0]);
      ReplayKeepsBalance(Apply(s, ops[0]).pool, ops[1..]);
    }
  }

  /** Every reserve moves by exactly the collateral deposited; buy_token
      contributes nothing. */
  lemma {:induction false} ReplayDeposits(s: Pool, ops: seq<Op>)
    ensures Replay(s, ops).lpToken == s.lpToken + Deposited(ops)
    ensures Replay(s, ops).lpYes == s.lpYes + Deposited(ops)
    ensures Replay(s, ops).lpNo == s.lpNo + Deposited(ops)
    decreases |ops|
  {
    if ops != [] {
      ReplayDeposits(Apply(s, ops[0]).pool, ops[1..]);
    }
  }

  /** From the import-time state, any sequence of calls leaves
      lp_yes == lp_no == lp_token == the total deposited, all four prices
      equal, and a well-formed history starting with the header. */
  lemma ReplayFromInitial(ops: seq<Op>)
    ensures var s := Replay(Initial, ops);
      s.lpYes == s.lpNo == s.lpToken == Deposited(ops) &&
      s.buyPriceYes == s.sellPriceYes == s.buyPriceNo == s.sellPriceNo &&
      WellFormedHistory(s.history) && s.history[0] == HeaderRow
  {
    InitialBalanced();
    ReplayKeepsBalance(Initial, ops);
    ReplayDeposits(Initial, ops);
  }

  /** Since buy_token never changes anything, dropping the buys from a call
      sequence does not change where it ends. */
  lemma {:induction false} BuysAreInert(s: Pool, ops: seq<Op>)
    ensures Replay(s, ops) == Replay(s, WithoutBuys(ops))
    decreases |ops|
  {
    if ops != [] {
      BuysAreInert(Apply(s, ops[0]).pool, ops[1..]);
      if !ops[0].BuyTokenOp? {
        var w := [ops[0]] + WithoutBuys(ops[1..]);
        assert w[0] == ops[0] && w[1..] == WithoutBuys(ops[1..]);
      }
    }
  }
}
